=== FILE: README.md ===
# Vehicle simulator core in Dafny

This project models the per-vehicle simulation core of the vehicles simulator.
Each simulated vehicle runs a step function over a grid map. An idle vehicle asks an
unreliable task source for a destination. A vehicle with a task in progress
makes one navigation step towards it. That step can change its heading by a
weighted random choice, and it adjusts speed and a turn gate. It then moves along one axis
and refreshes the "destination reached" and "out of the allowed zone"
statuses.

Each source file maps to one module:

- `Schemas` (`schemas.dfy`): the value types (directions, shifts, locations,
  map sizes, task states). The pydantic validation becomes `Result`-returning
  constructors.
- `Locations` (`locations.dfy`): the single navigation map and the location
  service.
- `Movement` (`movement.dfy`): speed changes, the turn gate, and the shift of one
  move.
- `Heading` (`heading.dfy`): the heading-direction manager. This covers provider
  registration, the multiplicative weights, the normalised probabilities, and
  the weighted draw.
- `Navigation` (`navigation.dfy`): the destination tracker, the allowed-zone
  manager and the navigation manager that composes one navigation step.
- `Tasks` (`tasks.dfy`): the two-state tasks manager and its failing task
  source.
- `Vehicles` (`vehicles.dfy`): the vehicle step function and runs of several
  steps.

Every random draw of the source is a parameter of the model:

- the turn-distance draw is an integer `r` in `[1, turn_distance_base]`;
- the heading draw is a sample `u` in `[0, 1)`;
- the task source takes a failure sample in `[0, 1)` and coordinates in
  `[0, x_size)` and `[0, y_size)`.

The properties hold for every value of these draws. The
weighted heading draw follows the standard `random.choices` rule: cumulative
weights in the order Up, Down, Left, Right, and the first direction whose
cumulative weight exceeds `u` times the total is chosen.

The turn gate counts down by one on every move and has no floor at zero. It
opens only when the count is exactly zero and the speed is at most the turn
threshold. A vehicle whose move reaches zero above the threshold therefore
never turns again. This happens when one speed step carries the speed past
the threshold just as the count runs out. The model keeps this behaviour as
written. `Movement.GateShutReachable` shows that a fresh manager can get
there. A negative gate offset, which the configuration does not rule out, is
a second route: a turn can then set the count to zero or below, and the next
move takes it below zero at any speed (`Movement.GateShutByNegativeOffset`).
`Movement.GateStaysShut` and `Navigation.ShutGateNeverTurns` show
that the state is permanent.

The heading manager polls each registered provider object. The code as
written asks every object to refresh through `update_heading_directions`.
The destination tracker, the only provider the vehicle factory registers,
does not define that method (see "## Findings"). `Navigation.MoveToDestination`
therefore uses the corrected polling, which asks the tracker for the
directions it computes. As written, a vehicle whose heading manager is wired
as in vehicle_factory.py:57-69 would raise on its first moving step, because
its gate starts open; this is shown by
`Vehicles.FactoryVehicleFirstMoveAsWritten`. A heading draw whose total
weight is zero is a division by zero; the model reports it as an error of the
step.

`Heading.Draw` and `Navigation.NewZoneState` are helpers without rows of
their own: the draw is characterised by `Heading.DrawInterval`, and the empty
zone state by `Navigation.UpdateZone`, which returns it exactly for a location
inside the zone.

## Model

| member | source | states |
|---|---|---|
| Schemas.ParseDirection | vehicles_simulator/app/utils/schemas.py:13-17 | a string is accepted exactly when it is one of the four direction values, and the parsed direction has that value |
| Schemas.DirectionValueRoundTrip | vehicles_simulator/app/utils/schemas.py:13-17 | parsing the value of a direction gives the direction back, and distinct directions have distinct values |
| Schemas.UnitVector | vehicles_simulator/app/utils/schemas.py:20-24 | each direction is a unit step along exactly one axis, horizontal for Left/Right, positive for Right/Up |
| Schemas.OppositeVectors | vehicles_simulator/app/utils/schemas.py:20-24 | opposite directions have negated unit vectors and no two directions share a unit vector |
| Schemas.MakeShift | vehicles_simulator/app/utils/schemas.py:27-29 | a shift is built exactly when both coordinates are integral, and it keeps their values; otherwise a validation error |
| Schemas.MakeLocation | vehicles_simulator/app/utils/schemas.py:47-49 | a location is built exactly when both coordinates are integral, and it keeps their values; otherwise a validation error |
| Schemas.IntegralCoordinatesRoundTrip | vehicles_simulator/tests/unit/utils/test_schemas.py:21-64 | every integer shift and location is accepted unchanged when given as numbers |
| Schemas.MakeMapSize | vehicles_simulator/app/utils/schemas.py:42-44 | a map size is accepted exactly when both sides are positive, and then keeps them |
| Schemas.ParseTaskState | vehicles_simulator/app/utils/schemas.py:32-34 | exactly the two state values "Idle" and "In progress" parse, each to the state whose value it is |
| Locations.NewNavigationMap | vehicles_simulator/app/core/location.py:16-28 | the map can be created only when no instance exists yet; it then has the given sizes, otherwise creation fails with a value error |
| Locations.SecondMapRefused | vehicles_simulator/app/core/location.py:16-21 | creating the first map succeeds and creating a second one fails, whatever the sizes |
| Locations.SetXSize | vehicles_simulator/app/core/location.py:34-37 | changing the map width always fails with an attribute error |
| Locations.SetYSize | vehicles_simulator/app/core/location.py:43-46 | changing the map height always fails with an attribute error |
| Locations.UpdateLocation | vehicles_simulator/app/core/location.py:82-89 | the new location differs from the old one by exactly the shift, and the map is kept |
| Locations.OverrideCurrentLocation | vehicles_simulator/app/core/location.py:77-80 | the current location becomes the given one and the map is kept |
| Locations.UpdateLocationInverse | vehicles_simulator/app/core/location.py:82-89 | shifting and then shifting back restores the service; a shift leaves it unchanged only if it is zero |
| Movement.NewMovementState | vehicles_simulator/app/core/movement.py:44-57 | a new manager has the given maximum speed, stands still, heads up, has gate distance 0 and may turn |
| Movement.IncreaseSpeed | vehicles_simulator/app/core/movement.py:60-64 | the speed becomes the smaller of speed + step and the maximum: never above either, and equal to one of them; nothing else changes |
| Movement.DecreaseSpeed | vehicles_simulator/app/core/movement.py:66-69 | the speed becomes the larger of speed - step and 1: never below either, and equal to one of them; nothing else changes |
| Movement.Isqrt | vehicles_simulator/app/core/movement.py:144-150 | the result is the largest natural number whose square does not exceed the input |
| Movement.DistanceUntilTurn | vehicles_simulator/app/core/movement.py:144-150 | the gate distance is the rounded-down square root of the draw plus the offset, so at least offset + 1 |
| Movement.CheckCanTurn | vehicles_simulator/app/core/movement.py:131-142 | turning is allowed exactly when the speed is at most the threshold and the gate distance is exactly zero |
| Movement.Turn | vehicles_simulator/app/core/movement.py:71-88 | an open gate takes the new direction and redraws the distance at the same speed; a closed gate keeps direction and distance, and only brakes when within two units at speed |
| Movement.DecideSpeedChange | vehicles_simulator/app/core/movement.py:110-121 | a move accelerates when the gate distance exceeds the speed and brakes otherwise |
| Movement.MoveShift | vehicles_simulator/app/core/movement.py:123-129 | the shift is the direction's unit vector times the speed: (-speed, 0) for Left, (speed, 0) for Right, (0, speed) for Up, (0, -speed) for Down |
| Movement.Move | vehicles_simulator/app/core/movement.py:90-108 | a move keeps direction, counts the gate down by one, recomputes the turn permission, shifts at the new speed, and keeps speed within [1, max] |
| Movement.MoveSpeedDirection | vehicles_simulator/app/core/movement.py:110-121 | away from the speed limits, the speed rises exactly when the gate distance exceeds it and falls exactly when it does not |
| Movement.MoveShiftNonZero | vehicles_simulator/app/core/movement.py:90-108 | every move of a valid manager covers a non-zero distance equal to the new speed |
| Movement.TurnKeepsSpeedInvariant | vehicles_simulator/app/core/movement.py:71-88 | a turn attempt keeps the speed within bounds |
| Movement.GateStaysShut | vehicles_simulator/app/core/movement.py:104-108 | once the gate is closed at distance zero or below, moves and turn attempts never reopen it nor change direction |
| Movement.GateShutReachable | vehicles_simulator/app/core/movement.py:71-142 | from a fresh manager with speed step 3, threshold 2 and maximum 5, the first turn and move shut the gate for good, whatever the turn draw |
| Movement.GateShutByNegativeOffset | vehicles_simulator/app/core/movement.py:71-150 | with a gate offset of -1, the first turn and move from a fresh manager shut the gate for good while the speed is still below the turn threshold |
| Heading.InitialWeights | vehicles_simulator/app/core/heading.py:31-36 | every direction starts with weight 25 |
| Heading.ApplySuggestion | vehicles_simulator/app/core/heading.py:60-69 | a suggestion multiplies the weight of each suggested direction by the provider weight and leaves the others alone |
| Heading.HeadingWeightIsProduct | vehicles_simulator/app/core/heading.py:55-72 | a direction's weight is 25 times the product of the weights of the providers suggesting it |
| Heading.HeadingWeightsOrderIndependent | vehicles_simulator/app/core/heading.py:55-72 | the weights do not depend on the order in which providers are polled |
| Heading.Probabilities | vehicles_simulator/app/core/heading.py:70-72 | normalising succeeds exactly when the total weight is non-zero; it gives each direction its share, non-negative and summing to 1 |
| Heading.NoProvidersUniform | vehicles_simulator/app/core/heading.py:31-72 | without providers every direction has probability 1/4 |
| Heading.SingleProviderFavoursSuggestions | vehicles_simulator/app/core/heading.py:55-72 | with one provider of weight above 1, a suggested direction is strictly more likely than an unsuggested one |
| Heading.DrawInterval | vehicles_simulator/app/core/heading.py:74-89 | the draw selects a direction exactly when the scaled sample falls in its cumulative interval, so only directions of positive probability are drawn |
| Heading.NewHeadingManager | vehicles_simulator/app/core/heading.py:38-40 | a new manager has no providers and heads up |
| Heading.RegisterHeadingProvider | vehicles_simulator/app/core/heading.py:42-53 | registration appends the provider object with its name and weight, and keeps earlier providers and the heading |
| Heading.PolledWeight | vehicles_simulator/app/core/heading.py:60-69 | after polling, each direction weighs 25 times the product of the weights of exactly the providers whose own objects suggest it, and 25 when no object suggests it |
| Heading.AsWrittenAgreesWithPolling | vehicles_simulator/app/core/heading.py:60-69 | when every registered object defines update_heading_directions, the weights as written equal the polled weights |
| Heading.PositiveWeightsTotal | vehicles_simulator/app/core/heading.py:60-72 | with every provider weight at least 1, each direction weighs at least 25, so the total is at least 100 and normalising never divides by zero |
| Heading.UpdateHeadingDirection | vehicles_simulator/app/core/heading.py:71-93 | the new heading is the direction whose cumulative probability interval, in the order Up, Down, Left, Right, contains the sample, so it has positive probability; a zero total weight fails with a division by zero; the providers are kept |
| Heading.HeadingWeightsAsWritten | vehicles_simulator/app/core/heading.py:60-69 | as written, the weights are computed exactly when every registered object defines update_heading_directions, and otherwise fail with an attribute error |
| Heading.FactoryProviderAsWritten | vehicles_simulator/app/core/vehicle_factory.py:64-69 | as written, the factory's manager fails because the destination tracker lacks update_heading_directions; polling the tracker always yields a heading |
| Navigation.NewDestinationTracker | vehicles_simulator/app/core/navigation.py:131-142 | a new tracker aims at (0, 0), is not reached and keeps the threshold |
| Navigation.UpdateDestinationReached | vehicles_simulator/app/core/navigation.py:216-230 | the destination is reached exactly when both coordinate differences are within the threshold; nothing else changes |
| Navigation.HeadingDirections | vehicles_simulator/app/core/navigation.py:181-197 | Right/Up are suggested exactly when the destination lies beyond the threshold in that direction, Left/Down exactly when it lies beyond it on the other side; at most one per axis, no repeats, the horizontal one first |
| Navigation.HeadingDirectionsEmptyIffReached | vehicles_simulator/app/core/navigation.py:181-230 | no direction is suggested exactly when the destination is within the threshold |
| Navigation.UpdateZone | vehicles_simulator/app/core/navigation.py:268-287 | each border is reported breached exactly when the location is past it, at most one per axis, none twice and the horizontal one first; out-of-zone exactly when some border is, and an inside location resets the state |
| Navigation.ZoneUpdateForgetsPriorState | vehicles_simulator/app/core/navigation.py:268-292 | the zone status depends only on the location, so updating twice changes nothing |
| Navigation.ZoneBordersOnValidMap | vehicles_simulator/app/core/navigation.py:268-287 | on a valid map the vehicle is out of zone exactly when it is outside [0, x_size] x [0, y_size] |
| Navigation.UpdateStatuses | vehicles_simulator/app/core/navigation.py:109-112 | afterwards reached and zone statuses agree with the current location; only those change |
| Navigation.UpdateStatusesIdempotent | vehicles_simulator/app/core/navigation.py:109-112 | refreshing statuses twice is the same as once, and a current state is left unchanged |
| Navigation.InitializeNewTask | vehicles_simulator/app/core/navigation.py:94-97 | the tracker aims at the new destination with statuses refreshed, and location, movement and heading are kept |
| Navigation.ApplyShift | vehicles_simulator/app/core/navigation.py:104-107 | the location moves by the shift and the statuses are refreshed for it; the destination, threshold, movement and heading are kept |
| Navigation.MoveToDestination | vehicles_simulator/app/core/navigation.py:77-92 | a reached destination only refreshes statuses; otherwise the heading is drawn from the polled tracker only when the gate is open, the vehicle turns and moves once, and the statuses are refreshed; the step fails exactly when that draw divides by zero |
| Navigation.MoveToDestinationProgress | vehicles_simulator/app/core/navigation.py:77-92 | with every provider weight at least 1 a step never fails; a step keeps the speed bounds and, while the destination is not reached, changes the location |
| Navigation.ShutGateNeverTurns | vehicles_simulator/app/core/navigation.py:77-92 | however many navigation steps follow, a shut gate stays shut, the heading is never drawn again so no step fails, and the direction never changes |
| Tasks.NewTasksManager | vehicles_simulator/app/core/task.py:26-30 | a new manager is idle without a task |
| Tasks.GetNewTask | vehicles_simulator/app/core/task.py:40-51 | a request fails exactly when the sample is below the failure probability, and otherwise yields a location on the task map |
| Tasks.GenerateRandomLocation | vehicles_simulator/app/core/task.py:62-67 | the generated location lies within [0, x_size) x [0, y_size) |
| Tasks.FailureProbabilityExtremes | vehicles_simulator/app/core/task.py:69-72 | probability 1 makes every request fail and probability 0 none |
| Tasks.InitializeNewTask | vehicles_simulator/app/core/task.py:53-56 | accepting a task records it and puts the manager in progress |
| Tasks.DestinationReached | vehicles_simulator/app/core/task.py:58-60 | the notification makes the manager idle and keeps the task |
| Tasks.DestinationReachedIdempotent | vehicles_simulator/app/core/vehicle.py:72-78 | the doubled reached notification acts like a single one |
| Vehicles.NewVehicle | vehicles_simulator/tests/integration/test_vehicle.py:25-77 | a vehicle wired from its components is idle, at its start location, standing still with the given maximum speed, and free to turn; it keeps the given heading manager and failure probability, with a default tracker and a fresh zone status |
| Heading.FactoryHeadingManager | vehicles_simulator/app/core/vehicle_factory.py:64-69 | the factory registers the destination tracker as the only heading provider, named "Destination" with weight 10 |
| Vehicles.RunExecutionStep | vehicles_simulator/app/core/vehicle.py:48-85 | an idle step never fails or moves, and either changes nothing or starts the obtained task in both managers, keeping the reached threshold and the heading; a step in progress makes one navigation step, fails exactly when it does, and goes idle exactly when the destination is reached |
| Vehicles.AcquireAndMoveExclusive | vehicles_simulator/app/core/vehicle.py:48-85 | no step both obtains a task and moves; a state change is either a task start without motion or a reached destination |
| Vehicles.AcquiredTaskInsideZone | vehicles_simulator/app/core/task.py:62-67 | a task drawn from a task map no larger than the navigation map lies inside the allowed zone |
| Vehicles.CertainFailureNeverMoves | vehicles_simulator/app/core/vehicle.py:52-65 | an idle vehicle whose requests always fail stays unchanged over any number of steps |
| Vehicles.RunKeepsInvariant | vehicles_simulator/app/core/vehicle.py:48-85 | with every provider weight at least 1, no number of steps fails, and all of them keep the speed bounds, the weights and the map |
| Vehicles.TwoStepsLeaveStart | vehicles_simulator/tests/integration/test_vehicle.py:118-138 | a new vehicle at (1, 1) that never fails to get a task has left (1, 1) after two steps without failing, unless its task is already within reach |
| Vehicles.FactoryVehicleFirstMoveAsWritten | vehicles_simulator/app/core/navigation.py:84-88 | after a vehicle whose heading manager is wired as in vehicle_factory.py:57-69 obtains a task out of reach, its next step finds the gate open, so it draws a heading, and the weight computation as written fails on the destination tracker |

## Left out

- The telemetry tracker (`tracker.py`) and the message sender (`send.py`) are left out: the tracker call at the end of a step with a task in progress (vehicle.py:84-85) is modelled as a no-op. As written, the tracker cannot run at all: tracker.py:6-11 imports `MessageSender`, which interfaces.py does not define, so the module fails at import; and `collect_tracking_data` reads `heading_direction` and `out_of_zone_status` of the navigation manager (tracker.py:105-115), which it does not have, so every step with a task in progress would raise after the move. Vehicles.RunExecutionStep, Vehicles.RunKeepsInvariant and Vehicles.TwoStepsLeaveStart rely on this abstraction.
- The vehicle factory (`vehicle_factory.py`) is not modelled as a whole: `create_vehicle` passes `message_sender` to the tracker manager (vehicle_factory.py:89-94), whose constructor has that parameter commented out (tracker.py:30), so the call raises a type error and no vehicle is returned. Only the factory's heading wiring (vehicle_factory.py:57-69) is modelled, by `Heading.FactoryHeadingManager`.
- The application loop and its threads (`app.py`) and the logger are left out: concurrency and I/O.
- The message schemas in `common/`, the lambda and the terraform tests are left out because they are outside the simulation core.
- `interfaces.py` holds only abstract base classes. The concrete modules stand for them, and `Heading.Entity` tells apart the two interfaces a heading provider object can implement.
- The floating-point Euclidean distance to the destination is left out. It is computed with square root and rounding and feeds only the tracker.
- `get_turn_direction` of the navigation manager is left out because nothing in the core calls it.
- Heading.Suggested: a provider object that implements the heading-directions interface is modelled by the directions its refresh yields, fixed across steps. No such class exists in the core, so how it refreshes is not modelled.
- Heading.ApplySuggestion: provider weights are natural numbers. Fractional and negative weights are not modelled, because exact nonlinear real arithmetic over them is beyond what the proofs can afford. The factory only uses the weight 10.
- Heading.Probabilities: probabilities are exact reals, not floating-point numbers, so rounding in the normalisation and in the cumulative sums is not modelled.
- Movement.DistanceUntilTurn: the floating-point square root is modelled by the exact integer square root. The two agree for every draw below 2^52.
- Tasks.GetNewTask: the task map size comes from configuration constants and is validated again on every request, where an invalid size raises a validation error. The model takes the size as a parameter and requires it to be valid, so that error path is not modelled.
- The navigation map singleton is a class-level instance in the source. Here it is an explicit optional parameter of `Locations.NewNavigationMap`.
- Random number generation and seeding are left out. Every draw is a parameter.

## Findings

| source | as written | input that shows it | evidently intended | confidence | as-written member | corrected member |
|---|---|---|---|---|---|---|
| vehicles_simulator/app/core/heading.py:61-63 | each registered provider object is asked to `update_heading_directions()` before its `heading_directions` is read; the destination tracker has a `heading_directions` attribute (navigation.py:141) but no `update_heading_directions` method, so the weight computation raises an attribute error | a vehicle whose heading manager is wired as in vehicle_factory.py:57-69 (destination tracker registered with weight 10), first step after obtaining a task out of reach, when the turn gate is open | poll the tracker with `get_heading_directions()` (navigation.py:181-197) and multiply the weights of the returned directions | high; not executed | Heading.HeadingWeightsAsWritten, Vehicles.FactoryVehicleFirstMoveAsWritten | Heading.UpdateHeadingDirection, Navigation.MoveToDestination |

=== FILE: heading.dfy ===
/** The heading direction manager: a weighted random choice of the next
    direction. Every direction starts from the same base weight; each
    registered provider multiplies the weight of the directions it suggests
    by its own weight; the weights are normalised into probabilities and one
    weighted draw picks the heading. */
module Heading {
  import opened Schemas

  /** A provider's trust weight. */
  type Weight = nat

  /** The object a provider is registered with, told apart by the interface
      its class implements. The manager is written against the
      heading-directions interface: such an object refreshes its suggestion
      with `update_heading_directions` and then exposes it as
      `heading_directions`. The vehicle's destination tracker implements the
      destination-tracker interface instead: it computes its suggestion on
      request with `get_heading_directions` and has no refresh method. */
  datatype Entity =
    | DestinationTrackerEntity
      /** an object of the heading-directions interface, with the directions
          its refresh yields */
    | DirectionsProviderEntity(headingDirections: seq<Direction>)

  /** Whether the object's class defines `update_heading_directions`. */
  predicate HasUpdateHeadingDirections(e: Entity)
  {
    e.DirectionsProviderEntity?
  }

  /** A registered heading provider: the object, its name and its weight. */
  datatype Provider = Provider(entity: Entity, name: string, weight: Weight)

  /** What one provider contributes to a selection: its weight and the
      directions it currently suggests. */
  datatype Suggestion = Suggestion(weight: Weight, directions: seq<Direction>)

  /** The unnormalised weight of each direction. */
  datatype WeightTable = WeightTable(up: nat, down: nat, left: nat, right: nat)
  {
    function Get(d: Direction): nat
    {
      match d
      case Up => up
      case Down => down
      case Left => left
      case Right => right
    }

    function Total(): nat
    {
      up + down + left + right
    }
  }

  /** The probability of each direction. */
  datatype Distribution = Distribution(up: real, down: real, left: real, right: real)
  {
    function Get(d: Direction): real
    {
      match d
      case Up => up
      case Down => down
      case Left => left
      case Right => right
    }

    function Total(): real
    {
      up + down + left + right
    }

    predicate NonNegative()
    {
      up >= 0.0 && down >= 0.0 && left >= 0.0 && right >= 0.0
    }
  }

  /** The weight every direction starts from. */
  const BaseWeight: nat := 25

  function InitialWeights(): (w: WeightTable)
    ensures forall d: Direction :: w.Get(d) == BaseWeight
  {
    WeightTable(BaseWeight, BaseWeight, BaseWeight, BaseWeight)
  }

  /** One provider's step: the directions it suggests are multiplied by its
      weight, every other direction keeps its weight. */
  function ApplySuggestion(w: WeightTable, s: Suggestion): (r: WeightTable)
    ensures forall d: Direction :: d in s.directions ==> r.Get(d) == w.Get(d) * s.weight
    ensures forall d: Direction :: d !in s.directions ==> r.Get(d) == w.Get(d)
  {
    WeightTable(
      if Up in s.directions then w.up * s.weight else w.up,
      if Down in s.directions then w.down * s.weight else w.down,
      if Left in s.directions then w.left * s.weight else w.left,
      if Right in s.directions then w.right * s.weight else w.right)
  }

  /** Providers applied in registration order. */
  function Accumulate(w: WeightTable, ss: seq<Suggestion>): WeightTable
    decreases |ss|
  {
    if |ss| == 0 then w else Accumulate(ApplySuggestion(w, ss[0]), ss[1..])
  }

  /** The unnormalised weights after every provider has been applied. */
  function HeadingWeights(ss: seq<Suggestion>): WeightTable
  {
    Accumulate(InitialWeights(), ss)
  }

  /** What one suggestion multiplies the weight of `d` by. */
  function Contribution(s: Suggestion, d: Direction): nat
  {
    if d in s.directions then s.weight else 1
  }

  /** The product of the weights of the providers that suggest `d`. */
  function Factor(ss: seq<Suggestion>, d: Direction): nat
  {
    if |ss| == 0 then 1 else Contribution(ss[0], d) * Factor(ss[1..], d)
  }

  /** The running weight of one direction as the providers are applied. */
  function Scaled(x: nat, ss: seq<Suggestion>, d: Direction): nat
    decreases |ss|
  {
    if |ss| == 0 then x else Scaled(x * Contribution(ss[0], d), ss[1..], d)
  }

  lemma {:induction false} AccumulateIsScaled(w: WeightTable, ss: seq<Suggestion>, d: Direction)
    ensures Accumulate(w, ss).Get(d) == Scaled(w.Get(d), ss, d)
    decreases |ss|
  {
    if |ss| > 0 {
      var w' := ApplySuggestion(w, ss[0]);
      assert w'.Get(d) == w.Get(d) * Contribution(ss[0], d);
      AccumulateIsScaled(w', ss[1..], d);
    }
  }

  /** Regrouping of a product of three factors. */
  lemma Regroup(a: nat, b: nat, c: nat)
    ensures (a * b) * c == a * (b * c)
    ensures (b * a) * c == a * (b * c)
  {
  }

  lemma {:induction false} ScaledIsProduct(x: nat, ss: seq<Suggestion>, d: Direction)
    ensures Scaled(x, ss, d) == x * Factor(ss, d)
    decreases |ss|
  {
    if |ss| > 0 {
      var c, f := Contribution(ss[0], d), Factor(ss[1..], d);
      var xc := x * c;
      ScaledIsProduct(xc, ss[1..], d);
      assert Scaled(x, ss, d) == xc * f;
      assert Factor(ss, d) == c * f;
      Regroup(x, c, f);
    }
  }

  /** The weight of each direction is the base weight times the product of
      the weights of exactly the providers that suggest it. */
  lemma HeadingWeightIsProduct(ss: seq<Suggestion>, d: Direction)
    ensures HeadingWeights(ss).Get(d) == BaseWeight * Factor(ss, d)
  {
    AccumulateIsScaled(InitialWeights(), ss, d);
    ScaledIsProduct(BaseWeight, ss, d);
  }

  lemma {:induction false} FactorAppend(a: seq<Suggestion>, b: seq<Suggestion>, d: Direction)
    ensures Factor(a + b, d) == Factor(a, d) * Factor(b, d)
    decreases |a|
  {
    if |a| > 0 {
      assert (a + b)[1..] == a[1..] + b;
      FactorAppend(a[1..], b, d);
      var c, p, q := Contribution(a[0], d), Factor(a[1..], d), Factor(b, d);
      assert Factor(a + b, d) == c * (p * q);
      assert Factor(a, d) == c * p;
      Regroup(c, p, q);
    } else {
      assert a + b == b;
    }
  }

  /** Taking one provider out of the product divides its contribution
      out. */
  lemma FactorRemove(b: seq<Suggestion>, i: nat, d: Direction)
    requires i < |b|
    ensures Factor(b, d) == Contribution(b[i], d) * Factor(b[..i] + b[i + 1..], d)
  {
    var pre, x, post := b[..i], b[i], b[i + 1..];
    assert b == (pre + [x]) + post;
    FactorAppend(pre, post, d);
    FactorAppend(pre + [x], post, d);
    FactorAppend(pre, [x], d);
    var c, fp, fq := Contribution(x, d), Factor(pre, d), Factor(post, d);
    assert Factor([x], d) == c;
    Regroup(c, fp, fq);
  }

  lemma {:induction false} FactorPermutation(a: seq<Suggestion>, b: seq<Suggestion>, d: Direction)
    requires multiset(a) == multiset(b)
    ensures Factor(a, d) == Factor(b, d)
    decreases |a|
  {
    if |a| == 0 {
      assert |b| == |multiset(b)| == 0;
    } else {
      var x := a[0];
      assert x in multiset(a);
      assert x in multiset(b);
      var i :| 0 <= i < |b| && b[i] == x;
      var rest := b[..i] + b[i + 1..];
      assert b == b[..i] + [x] + b[i + 1..];
      assert a == [x] + a[1..];
      assert multiset(a[1..]) == multiset(a) - multiset{x};
      assert multiset(rest) == multiset(b) - multiset{x};
      FactorPermutation(a[1..], rest, d);
      FactorRemove(b, i, d);
    }
  }

  /** The weights do not depend on the order in which the providers were
      registered. */
  lemma HeadingWeightsOrderIndependent(a: seq<Suggestion>, b: seq<Suggestion>)
    requires multiset(a) == multiset(b)
    ensures HeadingWeights(a) == HeadingWeights(b)
  {
    forall d: Direction
      ensures HeadingWeights(a).Get(d) == HeadingWeights(b).Get(d)
    {
      HeadingWeightIsProduct(a, d);
      HeadingWeightIsProduct(b, d);
      FactorPermutation(a, b, d);
    }
    var wa, wb := HeadingWeights(a), HeadingWeights(b);
    assert wa.Get(Up) == wb.Get(Up) && wa.Get(Down) == wb.Get(Down);
    assert wa.Get(Left) == wb.Get(Left) && wa.Get(Right) == wb.Get(Right);
  }

  /** Normalisation into probabilities; a zero total weight is a division
      by zero. */
  function Probabilities(w: WeightTable): (r: Option<Distribution>)
    ensures r.Some? <==> w.Total() != 0
    ensures r.Some? ==> r.value.Total() == 1.0 && r.value.NonNegative()
    ensures r.Some? ==> forall d: Direction :: r.value.Get(d) == w.Get(d) as real / w.Total() as real
  {
    var total := w.Total() as real;
    if total == 0.0 then None
    else
      var p := Distribution(w.up as real / total, w.down as real / total,
                            w.left as real / total, w.right as real / total);
      NormalisedShares(w.up as real, w.down as real, w.left as real, w.right as real, total);
      Some(p)
  }

  /** Four non-negative shares of their own sum add up to one. */
  lemma NormalisedShares(a: real, b: real, c: real, e: real, total: real)
    requires a >= 0.0 && b >= 0.0 && c >= 0.0 && e >= 0.0 && total == a + b + c + e && total > 0.0
    ensures a / total + b / total + c / total + e / total == 1.0
    ensures a / total >= 0.0 && b / total >= 0.0 && c / total >= 0.0 && e / total >= 0.0
  {
    assert a / total + b / total + c / total + e / total == (a + b + c + e) / total;
  }

  /** With no provider registered every direction is equally likely. */
  lemma NoProvidersUniform()
    ensures Probabilities(HeadingWeights([])) == Some(Distribution(0.25, 0.25, 0.25, 0.25))
  {
  }

  lemma DivideMonotone(a: real, b: real, t: real)
    requires t > 0.0 && a > b
    ensures a / t > b / t
  {
  }

  /** A single provider with a weight above 1 makes each direction it
      suggests strictly more likely than each direction it does not. */
  lemma {:induction false} SingleProviderFavoursSuggestions(s: Suggestion, d: Direction, e: Direction)
    requires s.weight > 1 && d in s.directions && e !in s.directions
    ensures Probabilities(HeadingWeights([s])).Some?
    ensures Probabilities(HeadingWeights([s])).value.Get(d) > Probabilities(HeadingWeights([s])).value.Get(e)
  {
    var w := HeadingWeights([s]);
    assert [s][1..] == [];
    HeadingWeightIsProduct([s], d);
    HeadingWeightIsProduct([s], e);
    assert Factor([s], d) == s.weight;
    assert Factor([s], e) == 1;
    assert w.Get(d) > w.Get(e) > 0;
    assert w.Total() > 0;
    DivideMonotone(w.Get(d) as real, w.Get(e) as real, w.Total() as real);
  }

  // ---------------------------------------------------------------------
  // The weighted draw

  /** The cumulative probability of the directions drawn before `d`, in the
      manager's order Up, Down, Left, Right. */
  function Lower(p: Distribution, d: Direction): real
  {
    match d
    case Up => 0.0
    case Down => p.up
    case Left => p.up + p.down
    case Right => p.up + p.down + p.left
  }

  /** One weighted choice from `p` with `u` the uniform sample in [0, 1):
      the sample is scaled by the total and the first direction whose
      cumulative weight exceeds it is taken; past the third cumulative
      weight the last direction is taken. */
  function Draw(p: Distribution, u: real): Direction
  {
    Pick(p, u * p.Total())
  }

  /** The direction a scaled sample `x` falls on. */
  function Pick(p: Distribution, x: real): Direction
  {
    if x < p.up then Up
    else if x < p.up + p.down then Down
    else if x < p.up + p.down + p.left then Left
    else Right
  }

  lemma PickInterval(p: Distribution, x: real, d: Direction)
    requires p.NonNegative() && 0.0 <= x < p.Total()
    ensures Pick(p, x) == d <==> Lower(p, d) <= x < Lower(p, d) + p.Get(d)
  {
  }

  /** A direction is drawn exactly when the scaled sample falls into its own
      interval, whose length is the direction's weight; so a direction is
      drawn with its own probability and never when that is zero. */
  lemma DrawInterval(p: Distribution, u: real, d: Direction)
    requires p.NonNegative() && p.Total() > 0.0 && 0.0 <= u < 1.0
    ensures Draw(p, u) == d <==> Lower(p, d) <= u * p.Total() < Lower(p, d) + p.Get(d)
    ensures Draw(p, u) == d ==> p.Get(d) > 0.0
  {
    ScaledSampleBounds(u, p.Total());
    PickInterval(p, u * p.Total(), d);
  }

  lemma ScaledSampleBounds(u: real, total: real)
    requires 0.0 <= u < 1.0 && total > 0.0
    ensures 0.0 <= u * total < total
  {
  }

  // ---------------------------------------------------------------------
  // The manager

  datatype HeadingManager = HeadingManager(providers: seq<Provider>, headingDirection: Direction)

  /** A new manager: no providers, heading up. */
  function NewHeadingManager(): (h: HeadingManager)
    ensures |h.providers| == 0 && h.headingDirection == Up
  {
    HeadingManager([], Up)
  }

  /** Registers a provider object, with its name and weight, after the
      existing ones. */
  function RegisterHeadingProvider(h: HeadingManager, entity: Entity, name: string, weight: Weight): (r: HeadingManager)
    ensures |r.providers| == |h.providers| + 1
    ensures r.providers[..|h.providers|] == h.providers
    ensures r.providers[|h.providers|] == Provider(entity, name, weight)
    ensures r.headingDirection == h.headingDirection
  {
    h.(providers := h.providers + [Provider(entity, name, weight)])
  }

  /** Every provider weighs at least 1. */
  predicate PositiveWeights(providers: seq<Provider>)
  {
    forall i :: 0 <= i < |providers| ==> providers[i].weight >= 1
  }

  /** The heading manager the vehicle factory builds: the vehicle's
      destination tracker registered as the one provider, named
      "Destination", with weight 10. */
  function FactoryHeadingManager(): (h: HeadingManager)
    ensures h.providers == [Provider(DestinationTrackerEntity, "Destination", 10)]
    ensures h.headingDirection == Up && PositiveWeights(h.providers)
  {
    RegisterHeadingProvider(NewHeadingManager(), DestinationTrackerEntity, "Destination", 10)
  }

  /** The directions an object suggests when it is polled, with
      `trackerDirections` what the destination tracker currently computes. */
  function Suggested(e: Entity, trackerDirections: seq<Direction>): seq<Direction>
  {
    match e
    case DestinationTrackerEntity => trackerDirections
    case DirectionsProviderEntity(ds) => ds
  }

  /** Polling the providers in registration order: each contributes its
      weight and what its own object suggests. */
  function Poll(providers: seq<Provider>, trackerDirections: seq<Direction>): seq<Suggestion>
  {
    seq(|providers|, i requires 0 <= i < |providers| =>
      Suggestion(providers[i].weight, Suggested(providers[i].entity, trackerDirections)))
  }

  /** The product of the weights of the providers whose objects suggest
      `d`. */
  function SuggestingWeight(providers: seq<Provider>, trackerDirections: seq<Direction>, d: Direction): nat
    decreases |providers|
  {
    if |providers| == 0 then 1
    else
      (if d in Suggested(providers[0].entity, trackerDirections) then providers[0].weight else 1)
      * SuggestingWeight(providers[1..], trackerDirections, d)
  }

  lemma {:induction false} PollFactor(providers: seq<Provider>, trackerDirections: seq<Direction>, d: Direction)
    ensures Factor(Poll(providers, trackerDirections), d) == SuggestingWeight(providers, trackerDirections, d)
    decreases |providers|
  {
    if |providers| > 0 {
      assert Poll(providers, trackerDirections)[1..] == Poll(providers[1..], trackerDirections);
      PollFactor(providers[1..], trackerDirections, d);
    }
  }

  /** A direction no suggestion contains keeps its weight. */
  lemma {:induction false} UnsuggestedKeepsBase(ss: seq<Suggestion>, d: Direction)
    requires forall i :: 0 <= i < |ss| ==> d !in ss[i].directions
    ensures Factor(ss, d) == 1
    decreases |ss|
  {
    if |ss| > 0 {
      UnsuggestedKeepsBase(ss[1..], d);
    }
  }

  /** After polling, each direction weighs the base weight times the weights
      of exactly the providers whose objects suggest it; a direction no
      object suggests keeps the base weight. */
  lemma PolledWeight(providers: seq<Provider>, trackerDirections: seq<Direction>, d: Direction)
    ensures HeadingWeights(Poll(providers, trackerDirections)).Get(d)
            == BaseWeight * SuggestingWeight(providers, trackerDirections, d)
    ensures (forall i :: 0 <= i < |providers| ==> d !in Suggested(providers[i].entity, trackerDirections))
            ==> HeadingWeights(Poll(providers, trackerDirections)).Get(d) == BaseWeight
  {
    var ss := Poll(providers, trackerDirections);
    HeadingWeightIsProduct(ss, d);
    PollFactor(providers, trackerDirections, d);
    if forall i :: 0 <= i < |providers| ==> d !in Suggested(providers[i].entity, trackerDirections) {
      UnsuggestedKeepsBase(ss, d);
    }
  }

  lemma {:induction false} FactorPositive(ss: seq<Suggestion>, d: Direction)
    requires forall i :: 0 <= i < |ss| ==> ss[i].weight >= 1
    ensures Factor(ss, d) >= 1
    decreases |ss|
  {
    if |ss| > 0 {
      FactorPositive(ss[1..], d);
      var c, f := Contribution(ss[0], d), Factor(ss[1..], d);
      assert c >= 1;
      assert c * f >= f;
    }
  }

  /** With every weight at least 1 no direction falls below the base
      weight, so the total is at least four base weights and normalisation
      never divides by zero. */
  lemma PositiveWeightsTotal(providers: seq<Provider>, trackerDirections: seq<Direction>)
    requires PositiveWeights(providers)
    ensures forall d: Direction :: HeadingWeights(Poll(providers, trackerDirections)).Get(d) >= BaseWeight
    ensures HeadingWeights(Poll(providers, trackerDirections)).Total() >= 4 * BaseWeight
  {
    var ss := Poll(providers, trackerDirections);
    forall d: Direction
      ensures HeadingWeights(ss).Get(d) >= BaseWeight
    {
      HeadingWeightIsProduct(ss, d);
      FactorPositive(ss, d);
    }
    var w := HeadingWeights(ss);
    assert w.Get(Up) >= BaseWeight && w.Get(Down) >= BaseWeight;
    assert w.Get(Left) >= BaseWeight && w.Get(Right) >= BaseWeight;
  }

  /** The probabilities of the next heading. */
  function HeadingDistribution(providers: seq<Provider>, trackerDirections: seq<Direction>): Option<Distribution>
  {
    Probabilities(HeadingWeights(Poll(providers, trackerDirections)))
  }

  /** Draws the next heading, with `u` the draw's uniform sample: the
      heading is the direction whose cumulative probability interval
      contains `u`. A zero total weight is a division by zero. */
  function UpdateHeadingDirection(h: HeadingManager, trackerDirections: seq<Direction>, u: real): (r: Result<HeadingManager>)
    requires 0.0 <= u < 1.0
    ensures r.Err? <==> HeadingWeights(Poll(h.providers, trackerDirections)).Total() == 0
    ensures r.Err? ==> r.error.ZeroDivisionError?
    ensures r.Ok? ==> r.value.providers == h.providers
    ensures r.Ok? ==> HeadingDistribution(h.providers, trackerDirections).Some?
    ensures r.Ok? ==>
              var p := HeadingDistribution(h.providers, trackerDirections).value;
              var d := r.value.headingDirection;
              Lower(p, d) <= u < Lower(p, d) + p.Get(d) && p.Get(d) > 0.0
  {
    match HeadingDistribution(h.providers, trackerDirections)
    case None => Err(ZeroDivisionError("division by zero"))
    case Some(p) =>
      DrawInterval(p, u, Draw(p, u));
      Ok(h.(headingDirection := Draw(p, u)))
  }

  /** The weight computation as the code is written: before it reads a
      provider's `heading_directions` it calls the provider's
      `update_heading_directions`, so the first provider whose object lacks
      that method raises an attribute error. */
  function AccumulateAsWritten(w: WeightTable, providers: seq<Provider>): (r: Result<WeightTable>)
    ensures r.Ok? <==> forall i :: 0 <= i < |providers| ==> HasUpdateHeadingDirections(providers[i].entity)
    ensures r.Err? ==> r.error.AttributeError?
    decreases |providers|
  {
    if |providers| == 0 then Ok(w)
    else
      match providers[0].entity
      case DestinationTrackerEntity =>
        Err(AttributeError("object has no attribute 'update_heading_directions'"))
      case DirectionsProviderEntity(ds) =>
        var r := AccumulateAsWritten(ApplySuggestion(w, Suggestion(providers[0].weight, ds)), providers[1..]);
        assert forall i :: 1 <= i < |providers| ==> providers[i] == providers[1..][i - 1];
        r
  }

  function HeadingWeightsAsWritten(providers: seq<Provider>): (r: Result<WeightTable>)
    ensures r.Ok? <==> forall i :: 0 <= i < |providers| ==> HasUpdateHeadingDirections(providers[i].entity)
    ensures r.Err? ==> r.error.AttributeError?
  {
    AccumulateAsWritten(InitialWeights(), providers)
  }

  lemma {:induction false} AccumulateAsWrittenAgrees(w: WeightTable, providers: seq<Provider>, trackerDirections: seq<Direction>)
    requires forall i :: 0 <= i < |providers| ==> HasUpdateHeadingDirections(providers[i].entity)
    ensures AccumulateAsWritten(w, providers) == Ok(Accumulate(w, Poll(providers, trackerDirections)))
    decreases |providers|
  {
    if |providers| > 0 {
      var ss := Poll(providers, trackerDirections);
      assert ss[1..] == Poll(providers[1..], trackerDirections);
      assert ss[0] == Suggestion(providers[0].weight, providers[0].entity.headingDirections);
      AccumulateAsWrittenAgrees(ApplySuggestion(w, ss[0]), providers[1..], trackerDirections);
    }
  }

  /** Where the code as written does not fail, that is when every registered
      object implements the heading-directions interface, it computes the
      same weights as polling each object. */
  lemma AsWrittenAgreesWithPolling(providers: seq<Provider>, trackerDirections: seq<Direction>)
    requires forall i :: 0 <= i < |providers| ==> HasUpdateHeadingDirections(providers[i].entity)
    ensures HeadingWeightsAsWritten(providers) == Ok(HeadingWeights(Poll(providers, trackerDirections)))
  {
    AccumulateAsWrittenAgrees(InitialWeights(), providers, trackerDirections);
  }

  /** The manager the vehicle factory builds holds the destination tracker:
      as written its weight computation fails, while polling the tracker
      always yields a heading. */
  lemma FactoryProviderAsWritten(trackerDirections: seq<Direction>, u: real)
    requires 0.0 <= u < 1.0
    ensures HeadingWeightsAsWritten(FactoryHeadingManager().providers).Err?
    ensures UpdateHeadingDirection(FactoryHeadingManager(), trackerDirections, u).Ok?
  {
    var ps := FactoryHeadingManager().providers;
    assert !HasUpdateHeadingDirections(ps[0].entity);
    PositiveWeightsTotal(ps, trackerDirections);
  }
}

=== FILE: locations.dfy ===
/** The navigation map shared by every vehicle of a simulation run, and the
    per-vehicle location service that owns the vehicle's position. */
module Locations {
  import opened Schemas

  /** The bounds of the grid. A map is built once per simulation run and
      then only read, so it is an immutable value here. */
  datatype NavigationMap = NavigationMap(xSize: int, ySize: int)

  /** Building the map. `instance` is the map already built in this run,
      if any: only the first construction succeeds, and it takes its sizes
      from the given map size. */
  function NewNavigationMap(instance: Option<NavigationMap>, size: MapSize): (r: Result<NavigationMap>)
    ensures r.Ok? <==> instance.None?
    ensures r.Ok? ==> r.value.xSize == size.xSize && r.value.ySize == size.ySize
    ensures r.Err? ==> r.error.ValueError?
  {
    if instance.Some? then Err(ValueError("Can't instantiate a new Map"))
    else Ok(NavigationMap(size.xSize, size.ySize))
  }

  /** A map, once built, blocks any further construction in the same run. */
  lemma SecondMapRefused(first: MapSize, second: MapSize)
    ensures NewNavigationMap(None, first).Ok?
    ensures NewNavigationMap(Some(NewNavigationMap(None, first).value), second).Err?
  {
  }

  /** Reassigning `x_size` of an existing map is refused. */
  function SetXSize(m: NavigationMap, value: int): (r: Result<NavigationMap>)
    ensures r.Err? && r.error.AttributeError?
  {
    Err(AttributeError("Can't redefine `x_size` as it is an immutable property of Map"))
  }

  /** Reassigning `y_size` of an existing map is refused. */
  function SetYSize(m: NavigationMap, value: int): (r: Result<NavigationMap>)
    ensures r.Err? && r.error.AttributeError?
  {
    Err(AttributeError("Can't redefine `y_size` as it is an immutable property of Map"))
  }

  /** A vehicle's position together with the map it moves on. */
  datatype LocationService = LocationService(navMap: NavigationMap, current: Location)

  /** Moves the vehicle by a shift; the map is left untouched. */
  function UpdateLocation(s: LocationService, shift: Shift): (r: LocationService)
    ensures r.navMap == s.navMap
    ensures r.current.x - s.current.x == shift.x
    ensures r.current.y - s.current.y == shift.y
  {
    s.(current := Location(s.current.x + shift.x, s.current.y + shift.y))
  }

  /** Places the vehicle at a given location; the map is left untouched. */
  function OverrideCurrentLocation(s: LocationService, l: Location): (r: LocationService)
    ensures r.navMap == s.navMap
    ensures r.current == l
  {
    s.(current := l)
  }

  /** Applying a shift and then its negation returns to the same state, and
      a location service only ever moves when the shift is non-zero. */
  lemma UpdateLocationInverse(s: LocationService, shift: Shift)
    ensures UpdateLocation(UpdateLocation(s, shift), NegateShift(shift)) == s
    ensures UpdateLocation(s, shift) == s <==> shift == Shift(0, 0)
  {
  }
}

=== FILE: movement.dfy ===
/** The movement manager: a vehicle's speed, direction and turn gate. Speed
    changes only gradually, a turn is only possible at low speed once the
    gate distance has run down to zero, and every move turns direction and
    speed into a shift on the grid. */
module Movement {
  import opened Schemas

  /** The configuration constants the movement manager reads at start-up. */
  datatype MovementConfig = MovementConfig(
    turnDistanceBase: int,
    turnDistanceOffset: int,
    turnSpeedThreshold: int,
    speedChangeStep: int)

  /** Sanity of the configuration: speed changes by a positive step, and
      the range the turn-distance draw is taken from is not empty. */
  predicate ValidConfig(c: MovementConfig)
  {
    c.speedChangeStep >= 1 && c.turnDistanceBase >= 1
  }

  datatype MovementState = MovementState(
    maxSpeed: int,
    speed: int,
    direction: Direction,
    distanceUntilTurn: int,
    canTurn: bool)

  /** A freshly built movement manager: standing still, heading up, free to
      turn. */
  function NewMovementState(maxSpeed: int): (m: MovementState)
    ensures m.maxSpeed == maxSpeed && m.speed == 0 && m.direction == Up
    ensures m.distanceUntilTurn == 0 && m.canTurn
  {
    MovementState(maxSpeed, 0, Up, 0, true)
  }

  /** The speed bounds the manager keeps once it is in motion: a positive
      maximum, and a speed between zero (only before the first move) and
      that maximum. */
  predicate SpeedInvariant(m: MovementState)
  {
    m.maxSpeed >= 1 && 0 <= m.speed <= m.maxSpeed
  }

  /** Speeds up by one step without exceeding the maximum speed. */
  function IncreaseSpeed(c: MovementConfig, m: MovementState): (r: MovementState)
    ensures r.speed <= m.maxSpeed && r.speed <= m.speed + c.speedChangeStep
    ensures r.speed == m.speed + c.speedChangeStep || r.speed == m.maxSpeed
    ensures r.speed < m.speed + c.speedChangeStep ==> r.speed == m.maxSpeed
    ensures ValidConfig(c) && m.speed <= m.maxSpeed ==> m.speed <= r.speed
    ensures r == m.(speed := r.speed)
  {
    var raised := m.speed + c.speedChangeStep;
    m.(speed := if raised < m.maxSpeed then raised else m.maxSpeed)
  }

  /** Slows down by one step, never below a speed of 1. */
  function DecreaseSpeed(c: MovementConfig, m: MovementState): (r: MovementState)
    ensures r.speed >= 1 && r.speed >= m.speed - c.speedChangeStep
    ensures r.speed == m.speed - c.speedChangeStep || r.speed == 1
    ensures r.speed > m.speed - c.speedChangeStep ==> r.speed == 1
    ensures ValidConfig(c) && m.speed >= 1 ==> r.speed <= m.speed
    ensures r == m.(speed := r.speed)
  {
    var lowered := m.speed - c.speedChangeStep;
    m.(speed := if lowered > 1 then lowered else 1)
  }

  /** The integer square root: the largest s with s * s <= n. */
  function Isqrt(n: nat): (s: nat)
    ensures s * s <= n < (s + 1) * (s + 1)
    decreases n
  {
    if n < 4 then (if n == 0 then 0 else 1)
    else
      var t := Isqrt(n / 4);
      DoubledRootBounds(n, t);
      if (2 * t + 1) * (2 * t + 1) <= n then 2 * t + 1 else 2 * t
  }

  /** Doubling the root of n / 4 brackets the root of n. */
  lemma DoubledRootBounds(n: nat, t: nat)
    requires t * t <= n / 4 < (t + 1) * (t + 1)
    ensures (2 * t) * (2 * t) <= n < (2 * t + 2) * (2 * t + 2)
  {
    var q := n / 4;
    assert 4 * q <= n < 4 * q + 4;
    assert (2 * t) * (2 * t) == 4 * (t * t);
    assert (2 * t + 2) * (2 * t + 2) == 4 * ((t + 1) * (t + 1));
    assert q + 1 <= (t + 1) * (t + 1);
  }

  /** The distance to travel before the next turn, from a draw `r` of the
      configured base range: the square root of the draw rounded down, plus
      the configured offset. */
  function DistanceUntilTurn(c: MovementConfig, r: int): (d: int)
    requires 1 <= r <= c.turnDistanceBase
    ensures d >= 1 + c.turnDistanceOffset
    ensures (d - c.turnDistanceOffset) * (d - c.turnDistanceOffset) <= r
    ensures r < (d - c.turnDistanceOffset + 1) * (d - c.turnDistanceOffset + 1)
  {
    Isqrt(r) + c.turnDistanceOffset
  }

  /** The turn permission recomputed from speed and gate distance. */
  function CheckCanTurn(c: MovementConfig, m: MovementState): (r: MovementState)
    ensures r.canTurn <==> m.speed <= c.turnSpeedThreshold && m.distanceUntilTurn == 0
    ensures r == m.(canTurn := r.canTurn)
  {
    m.(canTurn := m.speed <= c.turnSpeedThreshold && m.distanceUntilTurn == 0)
  }

  /** A turn attempt towards `dir`, with `r` the turn-distance draw. If the
      gate is open the direction changes and the gate distance is redrawn.
      Otherwise the direction stays; when the gate is almost reached (two
      steps or fewer) and the speed is above the turn threshold, the vehicle
      brakes instead. */
  function Turn(c: MovementConfig, m: MovementState, dir: Direction, r: int): (t: MovementState)
    requires 1 <= r <= c.turnDistanceBase
    // an open gate: new direction, redrawn distance, same speed
    ensures m.canTurn ==> t.direction == dir && t.speed == m.speed && t.canTurn
    ensures m.canTurn ==> t.distanceUntilTurn == DistanceUntilTurn(c, r)
    ensures m.canTurn ==> t.distanceUntilTurn >= 1 + c.turnDistanceOffset
    // a closed gate: direction, distance and permission never change
    ensures !m.canTurn ==> t.direction == m.direction && !t.canTurn
    ensures !m.canTurn ==> t.distanceUntilTurn == m.distanceUntilTurn
    // ... and the speed changes only by braking close to the gate at speed
    ensures !m.canTurn && (m.distanceUntilTurn > 2 || m.speed <= c.turnSpeedThreshold) ==> t == m
    ensures !m.canTurn && m.distanceUntilTurn <= 2 && m.speed > c.turnSpeedThreshold
            ==> t == DecreaseSpeed(c, m)
    ensures t.maxSpeed == m.maxSpeed
  {
    if m.canTurn then
      m.(direction := dir, distanceUntilTurn := DistanceUntilTurn(c, r))
    else if m.distanceUntilTurn > 2 then
      m
    else if m.speed > c.turnSpeedThreshold then
      DecreaseSpeed(c, m)
    else
      m
  }

  /** The speed decision of a move: accelerate while the gate distance
      exceeds the current speed, brake otherwise. */
  function DecideSpeedChange(c: MovementConfig, m: MovementState): (r: MovementState)
    ensures m.distanceUntilTurn > m.speed ==> r == IncreaseSpeed(c, m)
    ensures m.distanceUntilTurn <= m.speed ==> r == DecreaseSpeed(c, m)
  {
    if m.distanceUntilTurn > m.speed then IncreaseSpeed(c, m) else DecreaseSpeed(c, m)
  }

  /** The shift of one move: the unit vector of the direction scaled by the
      speed. */
  function MoveShift(m: MovementState): (s: Shift)
    ensures m.direction == Left ==> s == Shift(-m.speed, 0)
    ensures m.direction == Right ==> s == Shift(m.speed, 0)
    ensures m.direction == Up ==> s == Shift(0, m.speed)
    ensures m.direction == Down ==> s == Shift(0, -m.speed)
    ensures m.speed >= 0 ==> Abs(s.x) + Abs(s.y) == m.speed
  {
    var v := UnitVector(m.direction);
    Shift(v.dx * m.speed, v.dy * m.speed)
  }

  datatype Moved = Moved(state: MovementState, shift: Shift)

  /** One move: change the speed, compute the shift at the new speed, run
      the gate distance down by one (with no floor at zero) and recompute
      the turn permission. */
  function Move(c: MovementConfig, m: MovementState): (r: Moved)
    ensures r.state.direction == m.direction && r.state.maxSpeed == m.maxSpeed
    ensures r.state.distanceUntilTurn == m.distanceUntilTurn - 1
    ensures r.state.speed == DecideSpeedChange(c, m).speed
    ensures r.state.canTurn <==> r.state.speed <= c.turnSpeedThreshold && r.state.distanceUntilTurn == 0
    ensures r.shift == MoveShift(r.state)
    ensures ValidConfig(c) && SpeedInvariant(m) ==> SpeedInvariant(r.state) && r.state.speed >= 1
  {
    var changed := DecideSpeedChange(c, m);
    var shift := MoveShift(changed);
    var counted := changed.(distanceUntilTurn := changed.distanceUntilTurn - 1);
    Moved(CheckCanTurn(c, counted), shift)
  }

  /** Whether a move accelerates or brakes depends only on the gate
      distance before the move compared with the speed: away from the speed
      limits the speed strictly rises exactly when the distance exceeds it. */
  lemma MoveSpeedDirection(c: MovementConfig, m: MovementState)
    requires ValidConfig(c) && SpeedInvariant(m)
    ensures m.distanceUntilTurn > m.speed ==> Move(c, m).state.speed >= m.speed
    ensures m.distanceUntilTurn <= m.speed && m.speed >= 1 ==> Move(c, m).state.speed <= m.speed
    ensures 1 <= m.speed < m.maxSpeed ==> (Move(c, m).state.speed > m.speed <==> m.distanceUntilTurn > m.speed)
    ensures m.speed > 1 ==> (Move(c, m).state.speed < m.speed <==> m.distanceUntilTurn <= m.speed)
  {
  }

  /** Once in motion, every move covers a non-zero distance along exactly
      one axis. */
  lemma MoveShiftNonZero(c: MovementConfig, m: MovementState)
    requires ValidConfig(c) && SpeedInvariant(m)
    ensures Move(c, m).shift != Shift(0, 0)
    ensures Abs(Move(c, m).shift.x) + Abs(Move(c, m).shift.y) == Move(c, m).state.speed
  {
  }

  /** A turn keeps the speed bounds. */
  lemma TurnKeepsSpeedInvariant(c: MovementConfig, m: MovementState, dir: Direction, r: int)
    requires ValidConfig(c) && SpeedInvariant(m) && 1 <= r <= c.turnDistanceBase
    ensures SpeedInvariant(Turn(c, m, dir, r))
  {
  }

  /** The gate is shut for good: no permission to turn, and the distance has
      already reached zero or below it. */
  predicate GateShut(m: MovementState)
  {
    !m.canTurn && m.distanceUntilTurn <= 0
  }

  /** The gate distance is decremented without a floor at zero, so a gate
      that is shut stays shut: a move keeps it shut (the distance goes
      negative and can no longer equal zero) and a turn attempt can neither
      reopen it nor change direction. */
  lemma GateStaysShut(c: MovementConfig, m: MovementState, dir: Direction, r: int)
    requires GateShut(m) && 1 <= r <= c.turnDistanceBase
    ensures GateShut(Move(c, m).state) && Move(c, m).state.distanceUntilTurn < 0
    ensures GateShut(Turn(c, m, dir, r)) && Turn(c, m, dir, r).direction == m.direction
  {
  }

  /** A shut gate arises from a fresh manager whenever one speed step can
      carry the speed past the turn threshold just as the gate distance runs
      out: with steps of 3, a threshold of 2 and a maximum of 5, the first
      turn sets a gate distance of 1 whatever the draw, and the first move
      then reaches distance 0 at speed 3. */
  lemma GateShutReachable(dir: Direction, r: int)
    requires 1 <= r <= 3
    ensures var c := MovementConfig(3, 0, 2, 3);
            var m := Move(c, Turn(c, NewMovementState(5), dir, r)).state;
            ValidConfig(c) && SpeedInvariant(m) && GateShut(m)
  {
  }

  /** A negative gate offset is a second way to shut the gate, at any
      speed: with a base of 1 and an offset of -1 the first turn sets a gate
      distance of 0, and the first move takes it to -1 while the speed is
      still well below the threshold. */
  lemma GateShutByNegativeOffset(dir: Direction, maxSpeed: int)
    requires maxSpeed >= 1
    ensures var c := MovementConfig(1, -1, 10, 1);
            var m := Move(c, Turn(c, NewMovementState(maxSpeed), dir, 1)).state;
            ValidConfig(c) && SpeedInvariant(m) && GateShut(m) && m.speed <= c.turnSpeedThreshold
  {
  }
}

=== FILE: navigation.dfy ===
/** The navigation manager and its two status components: the destination
    tracker (reached flag and suggested headings towards the destination)
    and the allowed-zone manager (which borders of the map the vehicle has
    crossed). One navigation step optionally turns, then moves once, applies
    the shift and refreshes both statuses. */
module Navigation {
  import opened Schemas
  import opened Locations
  import opened Movement
  import opened Heading

  // ---------------------------------------------------------------------
  // Destination tracker

  /** The destination, whether it counts as reached, and the per-axis
      distance under which it does. */
  datatype DestinationTracker = DestinationTracker(destination: Location, reached: bool, threshold: int)

  /** A new tracker: destination at the origin, not reached. */
  function NewDestinationTracker(threshold: int): (t: DestinationTracker)
    ensures t.destination == Location(0, 0) && !t.reached && t.threshold == threshold
  {
    DestinationTracker(Location(0, 0), false, threshold)
  }

  /** The reached predicate: within the threshold on each axis separately
      (a square around the destination, not a circle). */
  predicate WithinThreshold(dest: Location, loc: Location, t: int)
  {
    Abs(dest.x - loc.x) <= t && Abs(dest.y - loc.y) <= t
  }

  /** Recomputes the reached flag for the vehicle's location. */
  function UpdateDestinationReached(tr: DestinationTracker, loc: Location): (r: DestinationTracker)
    ensures r.reached <==> -tr.threshold <= tr.destination.x - loc.x <= tr.threshold
                           && -tr.threshold <= tr.destination.y - loc.y <= tr.threshold
    ensures r == tr.(reached := r.reached)
  {
    tr.(reached := WithinThreshold(tr.destination, loc, tr.threshold))
  }

  /** The directions that lead towards the destination: Right or Left when
      the x distance is beyond the threshold, then Up or Down when the y
      distance is. */
  function HeadingDirections(tr: DestinationTracker, loc: Location): (r: seq<Direction>)
    ensures Right in r <==> tr.destination.x - loc.x > tr.threshold
    ensures Left in r <==> !(tr.destination.x - loc.x > tr.threshold)
                           && tr.destination.x - loc.x < -tr.threshold
    ensures Up in r <==> tr.destination.y - loc.y > tr.threshold
    ensures Down in r <==> !(tr.destination.y - loc.y > tr.threshold)
                           && tr.destination.y - loc.y < -tr.threshold
    ensures OnePerAxis(r) && |r| <= 2
    ensures forall i, j :: 0 <= i < j < |r| ==> r[i] != r[j]
    ensures forall i :: 0 <= i < |r| && IsHorizontal(r[i]) ==> i == 0
  {
    var dx := tr.destination.x - loc.x;
    var horizontal :=
      if dx > tr.threshold then [Right]
      else if dx < -tr.threshold then [Left]
      else [];
    var dy := tr.destination.y - loc.y;
    var vertical :=
      if dy > tr.threshold then [Up]
      else if dy < -tr.threshold then [Down]
      else [];
    horizontal + vertical
  }

  /** For a non-negative threshold the suggestion follows the sign of the
      distance on each axis, and nothing is suggested exactly when the
      destination counts as reached. */
  lemma HeadingDirectionsEmptyIffReached(tr: DestinationTracker, loc: Location)
    requires tr.threshold >= 0
    ensures Left in HeadingDirections(tr, loc) <==> tr.destination.x - loc.x < -tr.threshold
    ensures Down in HeadingDirections(tr, loc) <==> tr.destination.y - loc.y < -tr.threshold
    ensures |HeadingDirections(tr, loc)| == 0 <==> WithinThreshold(tr.destination, loc, tr.threshold)
  {
    var r := HeadingDirections(tr, loc);
    if |r| > 0 {
      assert r[0] in r;
    }
  }

  // ---------------------------------------------------------------------
  // Allowed-zone manager

  /** Whether the vehicle is out of the zone and which borders it has
      crossed. */
  datatype ZoneState = ZoneState(outOfZone: bool, breached: seq<Direction>)

  function NewZoneState(): (z: ZoneState)
    ensures !z.outOfZone && |z.breached| == 0
  {
    ZoneState(false, [])
  }

  /** The zone is the map rectangle including its edges. */
  predicate InsideZone(loc: Location, m: NavigationMap)
  {
    0 <= loc.x <= m.xSize && 0 <= loc.y <= m.ySize
  }

  /** Recomputes the zone status from scratch: the previous status is
      discarded, then each axis reports at most one crossed border, the low
      one (Left, Down) taking precedence. */
  function UpdateZone(z: ZoneState, loc: Location, m: NavigationMap): (r: ZoneState)
    ensures Left in r.breached <==> loc.x < 0
    ensures Right in r.breached <==> loc.x >= 0 && loc.x > m.xSize
    ensures Down in r.breached <==> loc.y < 0
    ensures Up in r.breached <==> loc.y >= 0 && loc.y > m.ySize
    ensures OnePerAxis(r.breached) && |r.breached| <= 2
    ensures forall i, j :: 0 <= i < j < |r.breached| ==> r.breached[i] != r.breached[j]
    ensures forall i :: 0 <= i < |r.breached| && IsHorizontal(r.breached[i]) ==> i == 0
    ensures r.outOfZone <==> |r.breached| > 0
    ensures m.xSize >= 0 && m.ySize >= 0 ==> (InsideZone(loc, m) <==> r == NewZoneState())
  {
    var horizontal :=
      if loc.x < 0 then [Left]
      else if loc.x > m.xSize then [Right]
      else [];
    var vertical :=
      if loc.y < 0 then [Down]
      else if loc.y > m.ySize then [Up]
      else [];
    var breached := horizontal + vertical;
    assert |breached| > 0 ==> breached[0] in breached;
    ZoneState(|breached| > 0, breached)
  }

  /** Because the status is reset first, the update depends only on the
      location and the map: any two earlier states give the same result,
      and repeating the update changes nothing. */
  lemma ZoneUpdateForgetsPriorState(z1: ZoneState, z2: ZoneState, loc: Location, m: NavigationMap)
    ensures UpdateZone(z1, loc, m) == UpdateZone(z2, loc, m)
    ensures UpdateZone(UpdateZone(z1, loc, m), loc, m) == UpdateZone(z1, loc, m)
  {
  }

  /** On a map with positive sizes each crossed border is reported exactly
      when the location is beyond it. */
  lemma ZoneBordersOnValidMap(z: ZoneState, loc: Location, m: NavigationMap)
    requires m.xSize > 0 && m.ySize > 0
    ensures Right in UpdateZone(z, loc, m).breached <==> loc.x > m.xSize
    ensures Up in UpdateZone(z, loc, m).breached <==> loc.y > m.ySize
    ensures UpdateZone(z, loc, m).outOfZone <==> !InsideZone(loc, m)
  {
  }

  // ---------------------------------------------------------------------
  // Navigation manager

  datatype NavigationManager = NavigationManager(
    zone: ZoneState,
    tracker: DestinationTracker,
    heading: HeadingManager,
    location: LocationService,
    movement: MovementState)

  /** Both statuses agree with the current location. */
  predicate StatusesCurrent(n: NavigationManager)
  {
    && n.tracker.reached == WithinThreshold(n.tracker.destination, n.location.current, n.tracker.threshold)
    && n.zone == UpdateZone(n.zone, n.location.current, n.location.navMap)
  }

  /** Refreshes the reached flag and the zone status; nothing else
      changes. */
  function UpdateStatuses(n: NavigationManager): (r: NavigationManager)
    ensures StatusesCurrent(r)
    ensures r == n.(tracker := r.tracker, zone := r.zone)
    ensures r.tracker == n.tracker.(reached := r.tracker.reached)
  {
    n.(tracker := UpdateDestinationReached(n.tracker, n.location.current),
       zone := UpdateZone(n.zone, n.location.current, n.location.navMap))
  }

  /** Refreshing twice is the same as refreshing once. */
  lemma UpdateStatusesIdempotent(n: NavigationManager)
    ensures UpdateStatuses(UpdateStatuses(n)) == UpdateStatuses(n)
    ensures StatusesCurrent(n) ==> UpdateStatuses(n) == n
  {
  }

  /** Accepts a new destination and refreshes the statuses for it. */
  function InitializeNewTask(n: NavigationManager, dest: Location): (r: NavigationManager)
    ensures r.tracker.destination == dest && r.tracker.threshold == n.tracker.threshold
    ensures StatusesCurrent(r)
    ensures r.location == n.location && r.movement == n.movement && r.heading == n.heading
  {
    UpdateStatuses(n.(tracker := n.tracker.(destination := dest)))
  }

  /** Moves the vehicle by a shift and refreshes the statuses. */
  function ApplyShift(n: NavigationManager, shift: Shift): (r: NavigationManager)
    ensures r.location == UpdateLocation(n.location, shift)
    ensures StatusesCurrent(r)
    ensures r.movement == n.movement && r.heading == n.heading
    ensures r.tracker == n.tracker.(reached := r.tracker.reached)
  {
    UpdateStatuses(n.(location := UpdateLocation(n.location, shift)))
  }

  /** The random draws one navigation step may consume: the heading
      sample and the turn-distance draw. */
  datatype NavigationDraws = NavigationDraws(headingSample: real, turnDraw: int)

  predicate ValidNavigationDraws(c: MovementConfig, d: NavigationDraws)
  {
    0.0 <= d.headingSample < 1.0 && 1 <= d.turnDraw <= c.turnDistanceBase
  }

  /** What the destination tracker suggests when the heading manager polls
      it. */
  function TrackerSuggestion(n: NavigationManager): seq<Direction>
  {
    HeadingDirections(n.tracker, n.location.current)
  }

  /** The movement state after the optional turn of a navigation step. */
  function TurnIfAllowed(c: MovementConfig, n: NavigationManager, h: HeadingManager, d: NavigationDraws): MovementState
    requires ValidNavigationDraws(c, d)
  {
    if n.movement.canTurn then Turn(c, n.movement, h.headingDirection, d.turnDraw) else n.movement
  }

  /** One step towards the destination. At the destination only the
      statuses are refreshed. Otherwise, if the gate allows, a heading is
      drawn from the providers' suggestions and a turn towards it is
      attempted; then exactly one move is made, its shift is applied to the
      location and the statuses are refreshed. The heading draw polls the
      providers' objects as they are meant to be polled: the destination
      tracker through the directions it computes. */
  function MoveToDestination(c: MovementConfig, n: NavigationManager, d: NavigationDraws): (r: Result<NavigationManager>)
    requires ValidNavigationDraws(c, d)
    // at the destination only the statuses are refreshed
    ensures n.tracker.reached ==> r == Ok(UpdateStatuses(n))
    // only the heading draw can fail, by a division by zero
    ensures r.Err? <==> && !n.tracker.reached && n.movement.canTurn
                        && UpdateHeadingDirection(n.heading, TrackerSuggestion(n), d.headingSample).Err?
    ensures r.Err? ==> r.error.ZeroDivisionError?
    ensures r.Ok? && !n.tracker.reached ==>
              && r.value.movement == Move(c, TurnIfAllowed(c, n, r.value.heading, d)).state
              && r.value.location == UpdateLocation(n.location, Move(c, TurnIfAllowed(c, n, r.value.heading, d)).shift)
    ensures r.Ok? && !n.tracker.reached && n.movement.canTurn ==>
              UpdateHeadingDirection(n.heading, TrackerSuggestion(n), d.headingSample) == Ok(r.value.heading)
    ensures r.Ok? && (n.tracker.reached || !n.movement.canTurn) ==> r.value.heading == n.heading
    ensures r.Ok? ==> r.value.heading.providers == n.heading.providers
    ensures r.Ok? ==> StatusesCurrent(r.value)
    ensures r.Ok? ==> r.value.location.navMap == n.location.navMap
    ensures r.Ok? ==> r.value.tracker == n.tracker.(reached := r.value.tracker.reached)
  {
    if n.tracker.reached then
      Ok(UpdateStatuses(n))
    else
      var polled :=
        if n.movement.canTurn
        then UpdateHeadingDirection(n.heading, TrackerSuggestion(n), d.headingSample)
        else Ok(n.heading);
      match polled
      case Err(e) => Err(e)
      case Ok(heading) =>
        var turned := TurnIfAllowed(c, n, heading, d);
        var moved := Move(c, turned);
        var shifted := ApplyShift(n.(heading := heading, movement := moved.state), moved.shift);
        Ok(UpdateStatuses(shifted))
  }

  /** A navigation step never fails when every provider weighs at least 1;
      it keeps the speed bounds, and a step taken while the destination is
      not reached always changes the location. */
  lemma MoveToDestinationProgress(c: MovementConfig, n: NavigationManager, d: NavigationDraws)
    requires ValidConfig(c) && ValidNavigationDraws(c, d) && SpeedInvariant(n.movement)
    ensures PositiveWeights(n.heading.providers) ==> MoveToDestination(c, n, d).Ok?
    ensures MoveToDestination(c, n, d).Ok? ==> SpeedInvariant(MoveToDestination(c, n, d).value.movement)
    ensures MoveToDestination(c, n, d).Ok? && !n.tracker.reached ==>
              && MoveToDestination(c, n, d).value.location.current != n.location.current
              && MoveToDestination(c, n, d).value.movement.speed >= 1
  {
    var r := MoveToDestination(c, n, d);
    if PositiveWeights(n.heading.providers) {
      PositiveWeightsTotal(n.heading.providers, TrackerSuggestion(n));
    }
    if r.Ok? && !n.tracker.reached {
      var turned := TurnIfAllowed(c, n, r.value.heading, d);
      if n.movement.canTurn {
        TurnKeepsSpeedInvariant(c, n.movement, r.value.heading.headingDirection, d.turnDraw);
      }
      MoveShiftNonZero(c, turned);
      UpdateLocationInverse(n.location, Move(c, turned).shift);
    }
  }

  /** A sequence of navigation steps, one per draw, stopping at the first
      failure. */
  function Navigate(c: MovementConfig, n: NavigationManager, ds: seq<NavigationDraws>): Result<NavigationManager>
    requires forall i :: 0 <= i < |ds| ==> ValidNavigationDraws(c, ds[i])
    decreases |ds|
  {
    if |ds| == 0 then Ok(n)
    else
      match MoveToDestination(c, n, ds[0])
      case Err(e) => Err(e)
      case Ok(n') => Navigate(c, n', ds[1..])
  }

  /** Once the turn gate is shut it stays shut: however many navigation
      steps follow, the heading is never drawn again (so no step fails) and
      the vehicle never turns. */
  lemma {:induction false} ShutGateNeverTurns(c: MovementConfig, n: NavigationManager, ds: seq<NavigationDraws>)
    requires forall i :: 0 <= i < |ds| ==> ValidNavigationDraws(c, ds[i])
    requires GateShut(n.movement)
    ensures Navigate(c, n, ds).Ok?
    ensures GateShut(Navigate(c, n, ds).value.movement)
    ensures Navigate(c, n, ds).value.movement.direction == n.movement.direction
    decreases |ds|
  {
    if |ds| > 0 {
      var r := MoveToDestination(c, n, ds[0]);
      if !n.tracker.reached {
        GateStaysShut(c, n.movement, n.movement.direction, ds[0].turnDraw);
      }
      ShutGateNeverTurns(c, r.value, ds[1..]);
    }
  }
}

=== FILE: schemas.dfy ===
/** Value types shared by every component of the simulator: directions and
    their unit movement vectors, shifts, locations, map sizes and task states,
    together with the validation the schema layer applies when they are built
    from raw values. */
module Schemas {

  datatype Option<+T> = None | Some(value: T)

  /** Why a value was rejected or an operation could not complete. */
  datatype Error =
    | ValidationError(reason: string)
    | AttributeError(reason: string)
    | ValueError(reason: string)
    | ZeroDivisionError(reason: string)

  datatype Result<+T> = Ok(value: T) | Err(error: Error)

  function Abs(x: int): (r: nat)
    ensures r == x || r == -x
  {
    if x < 0 then -x else x
  }

  // ---------------------------------------------------------------------
  // Directions

  datatype Direction = Left | Right | Up | Down

  /** The textual value a direction carries on the wire. */
  function DirectionValue(d: Direction): string
  {
    match d
    case Left => "Left"
    case Right => "Right"
    case Up => "Up"
    case Down => "Down"
  }

  /** Looks a direction up by its textual value; any other string is
      rejected. */
  function ParseDirection(s: string): (r: Option<Direction>)
    ensures r.Some? <==> s in {"Left", "Right", "Up", "Down"}
    ensures r.Some? ==> DirectionValue(r.value) == s
  {
    if s == "Left" then Some(Left)
    else if s == "Right" then Some(Right)
    else if s == "Up" then Some(Up)
    else if s == "Down" then Some(Down)
    else None
  }

  /** Parsing a direction's own value gives back that direction, so the
      direction-to-string mapping is a bijection onto its four values. */
  lemma DirectionValueRoundTrip(d: Direction)
    ensures ParseDirection(DirectionValue(d)) == Some(d)
    ensures forall e: Direction :: DirectionValue(e) == DirectionValue(d) ==> e == d
  {
  }

  /** The direction on the other side of the same axis. */
  function Opposite(d: Direction): (r: Direction)
    ensures r != d
    ensures IsHorizontal(r) == IsHorizontal(d)
  {
    match d
    case Left => Right
    case Right => Left
    case Up => Down
    case Down => Up
  }

  predicate IsHorizontal(d: Direction)
  {
    d == Left || d == Right
  }

  /** At most one direction of each axis, as in the destination tracker's
      suggestions and the zone manager's crossed borders. */
  predicate OnePerAxis(ds: seq<Direction>)
  {
    !(Left in ds && Right in ds) && !(Up in ds && Down in ds)
  }

  // ---------------------------------------------------------------------
  // Movement vectors

  datatype Vector = Vector(dx: int, dy: int)

  /** The unit step of one movement in a direction; x grows to the right
      and y grows upwards. */
  function UnitVector(d: Direction): (v: Vector)
    ensures Abs(v.dx) + Abs(v.dy) == 1
    ensures IsHorizontal(d) <==> v.dy == 0
    ensures v.dx + v.dy == 1 <==> (d == Right || d == Up)
  {
    match d
    case Left => Vector(-1, 0)
    case Right => Vector(1, 0)
    case Up => Vector(0, 1)
    case Down => Vector(0, -1)
  }

  /** Opposite directions move in exactly opposite ways, and distinct
      directions have distinct vectors. */
  lemma OppositeVectors(d: Direction)
    ensures UnitVector(Opposite(d)) == Vector(-UnitVector(d).dx, -UnitVector(d).dy)
    ensures forall e: Direction :: UnitVector(e) == UnitVector(d) ==> e == d
  {
  }

  // ---------------------------------------------------------------------
  // Shifts and locations

  datatype Shift = Shift(x: int, y: int)

  datatype Location = Location(x: int, y: int)

  function NegateShift(s: Shift): Shift
  {
    Shift(-s.x, -s.y)
  }

  /** Integer validation of one coordinate: a number with a fractional part
      is rejected, an integral number is accepted as that integer. */
  function IntegerField(v: real): (r: Result<int>)
    ensures r.Ok? <==> v == v.Floor as real
    ensures r.Ok? ==> r.value as real == v
  {
    if v == v.Floor as real then Ok(v.Floor)
    else Err(ValidationError("Input should be a valid integer, got a number with a fractional part"))
  }

  /** Builds a shift from raw coordinates, rejecting fractional ones. */
  function MakeShift(x: real, y: real): (r: Result<Shift>)
    ensures r.Ok? <==> x == x.Floor as real && y == y.Floor as real
    ensures r.Ok? ==> r.value.x as real == x && r.value.y as real == y
  {
    match IntegerField(x)
    case Err(e) => Err(e)
    case Ok(ix) =>
      match IntegerField(y)
      case Err(e) => Err(e)
      case Ok(iy) => Ok(Shift(ix, iy))
  }

  /** Builds a location from raw coordinates, rejecting fractional ones. */
  function MakeLocation(x: real, y: real): (r: Result<Location>)
    ensures r.Ok? <==> x == x.Floor as real && y == y.Floor as real
    ensures r.Ok? ==> r.value.x as real == x && r.value.y as real == y
  {
    match IntegerField(x)
    case Err(e) => Err(e)
    case Ok(ix) =>
      match IntegerField(y)
      case Err(e) => Err(e)
      case Ok(iy) => Ok(Location(ix, iy))
  }

  /** Every integral shift and location survives validation unchanged. */
  lemma {:induction false} IntegralCoordinatesRoundTrip(s: Shift, l: Location)
    ensures MakeShift(s.x as real, s.y as real) == Ok(s)
    ensures MakeLocation(l.x as real, l.y as real) == Ok(l)
  {
    assert (s.x as real).Floor == s.x;
    assert (s.y as real).Floor == s.y;
    assert (l.x as real).Floor == l.x;
    assert (l.y as real).Floor == l.y;
  }

  // ---------------------------------------------------------------------
  // Map sizes

  datatype MapSize = MapSize(xSize: int, ySize: int)

  predicate ValidMapSize(m: MapSize)
  {
    m.xSize > 0 && m.ySize > 0
  }

  /** Builds a map size; both sizes must be strictly positive. */
  function MakeMapSize(x: int, y: int): (r: Result<MapSize>)
    ensures r.Ok? <==> x > 0 && y > 0
    ensures r.Ok? ==> r.value.xSize == x && r.value.ySize == y && ValidMapSize(r.value)
  {
    if x > 0 && y > 0 then Ok(MapSize(x, y))
    else Err(ValidationError("Input should be greater than 0"))
  }

  // ---------------------------------------------------------------------
  // Task states

  datatype TaskState = Idle | InProgress

  function TaskStateValue(s: TaskState): string
  {
    match s
    case Idle => "Idle"
    case InProgress => "In progress"
  }

  /** Looks a task state up by its textual value. */
  function ParseTaskState(v: string): (r: Option<TaskState>)
    ensures r.Some? <==> v in {"Idle", "In progress"}
    ensures r.Some? ==> TaskStateValue(r.value) == v
  {
    if v == "Idle" then Some(Idle)
    else if v == "In progress" then Some(InProgress)
    else None
  }
}

=== FILE: tasks.dfy ===
/** The tasks manager: a two-state machine, Idle and InProgress, together
    with an unreliable source of new tasks that fails with a configured
    probability and otherwise hands out a random location on the task map. */
module Tasks {
  import opened Schemas

  datatype TasksManager = TasksManager(state: TaskState, currentTask: Option<Location>, failProbability: real)

  /** A new manager: idle, without a task. */
  function NewTasksManager(failProbability: real): (t: TasksManager)
    ensures t.state == Idle && t.currentTask.None? && t.failProbability == failProbability
  {
    TasksManager(Idle, None, failProbability)
  }

  /** The random draws a task request consumes: the uniform sample in
      [0, 1) deciding failure, and the coordinates of the new task. */
  datatype TaskDraws = TaskDraws(sample: real, x: int, y: int)

  /** The draws lie in their ranges: the coordinates are drawn from
      [0, x_size) and [0, y_size) of the task map. */
  predicate ValidTaskDraws(size: MapSize, d: TaskDraws)
  {
    0.0 <= d.sample < 1.0 && 0 <= d.x < size.xSize && 0 <= d.y < size.ySize
  }

  /** Requests a new task from the simulated source. It fails exactly when
      the sample falls below the failure probability, and otherwise yields
      the drawn location, which lies on the task map. The manager itself is
      not changed by a request. */
  function GetNewTask(t: TasksManager, size: MapSize, d: TaskDraws): (r: Option<Location>)
    requires ValidMapSize(size) && ValidTaskDraws(size, d)
    ensures r.None? <==> d.sample < t.failProbability
    ensures r.Some? ==> 0 <= r.value.x < size.xSize && 0 <= r.value.y < size.ySize
    ensures r.Some? ==> r.value == Location(d.x, d.y)
  {
    if FailToGetTask(t, d.sample) then None
    else Some(GenerateRandomLocation(size, d))
  }

  /** The failure coin: a sample below the failure probability. */
  predicate FailToGetTask(t: TasksManager, sample: real)
  {
    sample < t.failProbability
  }

  /** The location a successful request hands out. */
  function GenerateRandomLocation(size: MapSize, d: TaskDraws): (l: Location)
    requires ValidTaskDraws(size, d)
    ensures 0 <= l.x < size.xSize && 0 <= l.y < size.ySize
  {
    Location(d.x, d.y)
  }

  /** With probability 1 every request fails, with probability 0 (or less)
      none does. */
  lemma FailureProbabilityExtremes(t: TasksManager, size: MapSize, d: TaskDraws)
    requires ValidMapSize(size) && ValidTaskDraws(size, d)
    ensures t.failProbability >= 1.0 ==> GetNewTask(t, size, d).None?
    ensures t.failProbability <= 0.0 ==> GetNewTask(t, size, d).Some?
  {
  }

  /** Accepts a task: the manager records it and is then in progress. */
  function InitializeNewTask(t: TasksManager, task: Location): (r: TasksManager)
    ensures r.state == InProgress && r.currentTask == Some(task)
    ensures r.failProbability == t.failProbability
  {
    t.(currentTask := Some(task), state := InProgress)
  }

  /** Notifies the manager that the destination is reached: it becomes
      idle and keeps the task it had. */
  function DestinationReached(t: TasksManager): (r: TasksManager)
    ensures r.state == Idle
    ensures r.currentTask == t.currentTask && r.failProbability == t.failProbability
  {
    t.(state := Idle)
  }

  /** A second notification changes nothing. */
  lemma DestinationReachedIdempotent(t: TasksManager)
    ensures DestinationReached(DestinationReached(t)) == DestinationReached(t)
    ensures t.state == Idle ==> DestinationReached(t) == t
  {
  }
}

=== FILE: vehicles.dfy ===
/** The vehicle: the top-level per-vehicle state machine. An idle vehicle
    tries to obtain a task and, on success, hands it to the tasks and
    navigation managers and ends its step there; a vehicle with a task in
    progress makes one navigation step and goes idle once the destination
    is reached. The telemetry tracker call at the end of a step with a task
    in progress is modelled as a no-op. */
module Vehicles {
  import opened Schemas
  import opened Locations
  import opened Movement
  import opened Heading
  import opened Navigation
  import Tasks

  datatype Vehicle = Vehicle(nav: NavigationManager, tasks: Tasks.TasksManager)

  /** The configuration a vehicle step depends on: the movement constants
      and the map size tasks are drawn from. */
  datatype SimulationConfig = SimulationConfig(movement: MovementConfig, taskMap: MapSize)

  predicate ValidSimulationConfig(cfg: SimulationConfig)
  {
    ValidConfig(cfg.movement) && ValidMapSize(cfg.taskMap)
  }

  /** The random draws one vehicle step may consume. */
  datatype StepDraws = StepDraws(task: Tasks.TaskDraws, navigation: NavigationDraws)

  predicate ValidStepDraws(cfg: SimulationConfig, d: StepDraws)
  {
    Tasks.ValidTaskDraws(cfg.taskMap, d.task) && ValidNavigationDraws(cfg.movement, d.navigation)
  }

  /** The distance under which a destination counts as reached, unless
      configured otherwise. */
  const DefaultReachedThreshold: int := 3

  /** A vehicle as the components are built: idle, at `start`, standing
      still, with a default destination tracker and fresh zone status. */
  function NewVehicle(navMap: NavigationMap, start: Location, maxSpeed: int, failProbability: real,
                      heading: HeadingManager): (v: Vehicle)
    ensures v.tasks.state == Idle && v.nav.location.current == start && v.nav.location.navMap == navMap
    ensures v.nav.movement.speed == 0 && v.nav.movement.maxSpeed == maxSpeed && v.nav.movement.canTurn
    ensures v.nav.movement == NewMovementState(maxSpeed) && v.nav.heading == heading
    ensures v.tasks == Tasks.NewTasksManager(failProbability)
    ensures v.nav.tracker == NewDestinationTracker(DefaultReachedThreshold) && v.nav.zone == NewZoneState()
  {
    Vehicle(
      NavigationManager(
        NewZoneState(),
        NewDestinationTracker(DefaultReachedThreshold),
        heading,
        LocationService(navMap, start),
        NewMovementState(maxSpeed)),
      Tasks.NewTasksManager(failProbability))
  }

  /** One execution step of a vehicle. It fails only when the navigation
      step it makes fails. */
  function RunExecutionStep(cfg: SimulationConfig, v: Vehicle, d: StepDraws): (r: Result<Vehicle>)
    requires ValidSimulationConfig(cfg) && ValidStepDraws(cfg, d)
    // an idle step never fails and never moves the vehicle
    ensures v.tasks.state == Idle ==>
              r.Ok? && r.value.nav.location == v.nav.location && r.value.nav.movement == v.nav.movement
    // ... and either changes nothing, when no task is obtained
    ensures v.tasks.state == Idle && d.task.sample < v.tasks.failProbability ==> r == Ok(v)
    // ... or starts the task it obtained in both managers
    ensures v.tasks.state == Idle && !(d.task.sample < v.tasks.failProbability) ==>
              && r.value.tasks.state == InProgress
              && r.value.tasks.currentTask == Some(Location(d.task.x, d.task.y))
              && r.value.nav == InitializeNewTask(v.nav, Location(d.task.x, d.task.y))
              && r.value.nav.tracker.destination == Location(d.task.x, d.task.y)
              && r.value.nav.tracker.threshold == v.nav.tracker.threshold
              && r.value.nav.heading == v.nav.heading
              && StatusesCurrent(r.value.nav)
    // a step with a task in progress makes exactly one navigation step
    ensures v.tasks.state == InProgress ==>
              (r.Err? <==> MoveToDestination(cfg.movement, v.nav, d.navigation).Err?)
    ensures v.tasks.state == InProgress && r.Ok? ==>
              Ok(r.value.nav) == MoveToDestination(cfg.movement, v.nav, d.navigation)
    ensures v.tasks.state == InProgress && r.Ok? ==> (r.value.tasks.state == Idle <==> r.value.nav.tracker.reached)
    ensures v.tasks.state == InProgress && r.Ok? ==> r.value.tasks.currentTask == v.tasks.currentTask
    // the map, the heading providers and the failure probability are kept
    ensures r.Ok? ==> r.value.nav.location.navMap == v.nav.location.navMap
    ensures r.Ok? ==> r.value.nav.heading.providers == v.nav.heading.providers
    ensures r.Ok? ==> r.value.tasks.failProbability == v.tasks.failProbability
  {
    if v.tasks.state == Idle then
      match Tasks.GetNewTask(v.tasks, cfg.taskMap, d.task)
      case None => Ok(v)
      case Some(task) =>
        var tasks := Tasks.InitializeNewTask(v.tasks, task);
        Ok(Vehicle(InitializeNewTask(v.nav, task), tasks))
    else
      match MoveToDestination(cfg.movement, v.nav, d.navigation)
      case Err(e) => Err(e)
      case Ok(nav) =>
        // the reached notification is issued twice in a row
        var tasks := if nav.tracker.reached then Tasks.DestinationReached(v.tasks) else v.tasks;
        var tasks' := if nav.tracker.reached then Tasks.DestinationReached(tasks) else tasks;
        Ok(Vehicle(nav, tasks'))
  }

  /** Obtaining a task and moving never happen in the same step: a step
      that moves the vehicle or changes its movement had a task in progress
      and kept it. */
  lemma AcquireAndMoveExclusive(cfg: SimulationConfig, v: Vehicle, d: StepDraws)
    requires ValidSimulationConfig(cfg) && ValidStepDraws(cfg, d)
    ensures var r := RunExecutionStep(cfg, v, d);
            r.Ok? && (r.value.nav.location != v.nav.location || r.value.nav.movement != v.nav.movement) ==>
              v.tasks.state == InProgress && r.value.tasks.currentTask == v.tasks.currentTask
    ensures var r := RunExecutionStep(cfg, v, d);
            r.Ok? && r.value.tasks.state != v.tasks.state ==>
              (v.tasks.state == Idle && r.value.nav.location == v.nav.location)
              || (v.tasks.state == InProgress && r.value.nav.tracker.reached)
  {
  }

  /** A task obtained from a task map no larger than the navigation map
      always lies inside the allowed zone. */
  lemma AcquiredTaskInsideZone(cfg: SimulationConfig, v: Vehicle, d: StepDraws)
    requires ValidSimulationConfig(cfg) && ValidStepDraws(cfg, d)
    requires cfg.taskMap.xSize <= v.nav.location.navMap.xSize
    requires cfg.taskMap.ySize <= v.nav.location.navMap.ySize
    requires v.tasks.state == Idle && !(d.task.sample < v.tasks.failProbability)
    ensures InsideZone(RunExecutionStep(cfg, v, d).value.nav.tracker.destination, v.nav.location.navMap)
  {
  }

  predicate ValidRunDraws(cfg: SimulationConfig, ds: seq<StepDraws>)
  {
    forall i :: 0 <= i < |ds| ==> ValidStepDraws(cfg, ds[i])
  }

  /** Consecutive execution steps, one per draw, stopping at the first
      failure. */
  function Run(cfg: SimulationConfig, v: Vehicle, ds: seq<StepDraws>): Result<Vehicle>
    requires ValidSimulationConfig(cfg) && ValidRunDraws(cfg, ds)
    decreases |ds|
  {
    if |ds| == 0 then Ok(v)
    else
      match RunExecutionStep(cfg, v, ds[0])
      case Err(e) => Err(e)
      case Ok(v') => Run(cfg, v', ds[1..])
  }

  /** An idle vehicle whose task requests always fail stays exactly as it
      is, however many steps it runs; in particular it never moves. */
  lemma {:induction false} CertainFailureNeverMoves(cfg: SimulationConfig, v: Vehicle, ds: seq<StepDraws>)
    requires ValidSimulationConfig(cfg) && ValidRunDraws(cfg, ds)
    requires v.tasks.state == Idle && v.tasks.failProbability >= 1.0
    ensures Run(cfg, v, ds) == Ok(v)
    decreases |ds|
  {
    if |ds| > 0 {
      assert RunExecutionStep(cfg, v, ds[0]) == Ok(v);
      CertainFailureNeverMoves(cfg, v, ds[1..]);
    }
  }

  /** The state a running vehicle keeps: the speed bounds hold, and every
      heading provider weighs at least 1. */
  predicate VehicleInvariant(v: Vehicle)
  {
    SpeedInvariant(v.nav.movement) && PositiveWeights(v.nav.heading.providers)
  }

  /** Under the invariant no step fails, every step keeps the invariant,
      and no number of steps changes the map. */
  lemma {:induction false} RunKeepsInvariant(cfg: SimulationConfig, v: Vehicle, ds: seq<StepDraws>)
    requires ValidSimulationConfig(cfg) && ValidRunDraws(cfg, ds) && VehicleInvariant(v)
    ensures Run(cfg, v, ds).Ok?
    ensures VehicleInvariant(Run(cfg, v, ds).value)
    ensures Run(cfg, v, ds).value.nav.location.navMap == v.nav.location.navMap
    decreases |ds|
  {
    if |ds| > 0 {
      if v.tasks.state == InProgress {
        MoveToDestinationProgress(cfg.movement, v.nav, ds[0].navigation);
      }
      RunKeepsInvariant(cfg, RunExecutionStep(cfg, v, ds[0]).value, ds[1..]);
    }
  }

  /** A new vehicle at (1, 1) whose task requests never fail obtains a task
      in its first step; if that task is not already within reach of
      (1, 1), the second step moves the vehicle away from (1, 1). */
  lemma TwoStepsLeaveStart(cfg: SimulationConfig, navMap: NavigationMap, maxSpeed: int, heading: HeadingManager,
                           d1: StepDraws, d2: StepDraws)
    requires ValidSimulationConfig(cfg) && ValidStepDraws(cfg, d1) && ValidStepDraws(cfg, d2)
    requires maxSpeed >= 1 && PositiveWeights(heading.providers)
    requires !WithinThreshold(Location(d1.task.x, d1.task.y), Location(1, 1), DefaultReachedThreshold)
    ensures Run(cfg, NewVehicle(navMap, Location(1, 1), maxSpeed, 0.0, heading), [d1, d2]).Ok?
    ensures Run(cfg, NewVehicle(navMap, Location(1, 1), maxSpeed, 0.0, heading), [d1, d2]).value.nav.location.current
            != Location(1, 1)
  {
    var v0 := NewVehicle(navMap, Location(1, 1), maxSpeed, 0.0, heading);
    var v1 := RunExecutionStep(cfg, v0, d1).value;
    assert !v1.nav.tracker.reached;
    MoveToDestinationProgress(cfg.movement, v1.nav, d2.navigation);
    var v2 := RunExecutionStep(cfg, v1, d2).value;
    assert [d1, d2][1..] == [d2];
    assert Run(cfg, v0, [d1, d2]) == Run(cfg, v1, [d2]);
    assert Run(cfg, v1, [d2]) == Run(cfg, v2, []);
  }

  /** As written, a vehicle whose heading manager has the destination
      tracker as its only provider fails on its first moving step: the gate
      is open then, so the heading is drawn, and the weight computation as
      written raises on the destination tracker. */
  lemma FactoryVehicleFirstMoveAsWritten(cfg: SimulationConfig, navMap: NavigationMap, start: Location,
                                         maxSpeed: int, failProbability: real, d1: StepDraws)
    requires ValidSimulationConfig(cfg) && ValidStepDraws(cfg, d1)
    requires !(d1.task.sample < failProbability)
    requires !WithinThreshold(Location(d1.task.x, d1.task.y), start, DefaultReachedThreshold)
    ensures var v1 := RunExecutionStep(cfg, NewVehicle(navMap, start, maxSpeed, failProbability, FactoryHeadingManager()), d1).value;
            && v1.tasks.state == InProgress && !v1.nav.tracker.reached && v1.nav.movement.canTurn
            && HeadingWeightsAsWritten(v1.nav.heading.providers).Err?
  {
    var v0 := NewVehicle(navMap, start, maxSpeed, failProbability, FactoryHeadingManager());
    var ps := v0.nav.heading.providers;
    assert !HasUpdateHeadingDirections(ps[0].entity);
  }
}
